=== FILE: README.md ===
# Stage-4 diagnostic plot addressing and index transforms (Eureka)

This project is a Dafny model of the deterministic core of Eureka's stage-4
light-curve diagnostic plots (`eureka/S4_generate_lightcurves/plots_s4.py`).
Every plot draws on one resident matplotlib figure per diagnostic category and
is meant to save to a file whose name carries the category code and a
zero-padded bandpass or integration number (index 0 for the drift and 2D
plots). As written, the bandpass plot raises before it saves (see
"## Findings"). Before rendering, the plots also derive a few data series:
drift points split by the drift mask, channel-edge ticks for the 2D flux
map, and the integer axes of the cross-correlation plots. The model
covers those computations. Rendering is left out.

Modules:

- `Decimal` (`decimal.dfy`) models Python's `str` of a non-negative integer,
  `int` of a digit string and `str.zfill`. It also computes the pad width
  `int(np.floor(np.log10(N)) + 1)` exactly, as the exponent of the largest
  power of ten not above N, plus one.
- `Artifacts` (`artifacts.dfy`) holds the five categories (41 drift, 42 2D
  light curve, 43 1D light curve, 44 cross-correlation spectrum,
  45 cross-correlation values) with their file tags. It builds the figure
  handle and the file name, and has a decoder that reads a file name back
  into its category and index.
- `Indexing` (`indexing.dfy`) models Python `range` / `np.arange`,
  `np.where` on a boolean mask, and numpy integer-array indexing. The
  indexing returns IndexError past the end.
- `Unique` (`unique.dfy`) models `np.unique` of a real array: a sorted list
  with no duplicates.
- `Plots` (`plots.dfy`) models the five plot functions as pure records of
  what each one hands to the renderer.
- `Results` (`results.dfy`) holds the `Result` and `Option` types. It also
  defines the exceptions the modelled code can raise: IndexError, KeyError,
  the ValueErrors of numpy and matplotlib, and AttributeError.

Two facts about the naming scheme that follow from the code:

- The pad width is `int(np.floor(np.log10(N)) + 1)`, the number of decimal
  digits of N. So N = 10 pads to two digits, not one.
- The docstrings name the figures "Fig 4100" … "Fig 4500"
  (plots_s4.py:6, 42, 68, 112, 142). That matches the handle only when
  10 ≤ N ≤ 99. In general the handle is `code * 10^w`, where w is the pad
  width.

## Model

| member | source | states |
|---|---|---|
| `Decimal.FloorLog10` | eureka/S4_generate_lightcurves/plots_s4.py:37 | `floor(log10 N)` for N ≥ 1, taken as the k with 10^k ≤ N < 10^(k+1) |
| `Decimal.PadWidth` | eureka/S4_generate_lightcurves/plots_s4.py:21 | the pad width `floor(log10 N) + 1` is at least 1 and equals the number of digits `str(N)` prints |
| `Decimal.PadWidthExamples` | eureka/S4_generate_lightcurves/plots_s4.py:55 | N = 1 and N = 9 pad to one digit, N = 10 and 99 to two, N = 100 to three |
| `Decimal.Parse` | eureka/S4_generate_lightcurves/plots_s4.py:21 | `int(s)` of a digit string of length w is below 10^w, and a single digit reads as its value. Its positional law is `Decimal.ParseAppend` |
| `Decimal.ParseAppend` | eureka/S4_generate_lightcurves/plots_s4.py:21 | `int(a + b) == int(a) * 10^len(b) + int(b)` for digit strings, so the handle text `'43' + '00'` reads as 43 · 100 |
| `Decimal.Str` | eureka/S4_generate_lightcurves/plots_s4.py:37 | `str(i)` is a non-empty digit string with no leading zero whose length is the digit count of i |
| `Decimal.ParseStr` | eureka/S4_generate_lightcurves/plots_s4.py:21 | `int(str(i)) == i` |
| `Decimal.StrInjective` | eureka/S4_generate_lightcurves/plots_s4.py:37 | distinct indices print as distinct numerals, so `str(i)` never confuses two bandpasses |
| `Decimal.StrParse` | eureka/S4_generate_lightcurves/plots_s4.py:21 | a canonical numeral is what `str` prints for the value `int` reads from it |
| `Decimal.ParseLeadingZeros` | eureka/S4_generate_lightcurves/plots_s4.py:21 | leading zeros do not change the value `int` reads |
| `Decimal.ZFill` | eureka/S4_generate_lightcurves/plots_s4.py:37 | `s.zfill(w)` has length `max(len(s), w)` and returns s unchanged when it is already wide enough (never truncates). Unsigned input: s is kept as the suffix after '0' padding. Signed input: the sign moves to the front |
| `Decimal.Padded` | eureka/S4_generate_lightcurves/plots_s4.py:137 | `str(n).zfill(w)` has length `max(digits(n), w)`, holds only digits and reads back as n, even when n has more digits than w |
| `Decimal.PaddedIndexWidth` | eureka/S4_generate_lightcurves/plots_s4.py:37 | an index below N pads to exactly the pad width of N |
| `Decimal.PaddedOrder` | eureka/S4_generate_lightcurves/plots_s4.py:37 | for indices below N, comparing padded strings gives the same order as comparing the indices, in both directions |
| `Decimal.ParseOrderIsLexOrder` | eureka/S4_generate_lightcurves/plots_s4.py:37 | on digit strings of one width, numeric order and string order agree |
| `Decimal.ParseInjectiveFixedWidth` | eureka/S4_generate_lightcurves/plots_s4.py:37 | digit strings of one width that read as the same number are equal |
| `Artifacts.Category.Code` | eureka/S4_generate_lightcurves/plots_s4.py:21-162 | the literal codes 41 (drift, lines 55 and 63), 42 (2D light curve, 83 and 104), 43 (1D light curve, 21 and 37), 44 (lines 129 and 137) and 45 (157 and 162) each have exactly two digits |
| `Artifacts.Category.Tag` | eureka/S4_generate_lightcurves/plots_s4.py:37-162 | the file tags `Drift`, `2D_LC`, `1D_LC`, `CC_Spec`, `CC_Vals` (lines 63, 104, 37, 137, 162) are at least five characters and hold no '-' or '.' |
| `Artifacts.TagsDistinct` | eureka/S4_generate_lightcurves/plots_s4.py:37-162 | the five tags are pairwise different |
| `Artifacts.CategoryOfCode` | eureka/S4_generate_lightcurves/plots_s4.py:55-63 | maps a figure code to its category; codes 41–45 each name exactly one category |
| `Artifacts.FigureHandle` | eureka/S4_generate_lightcurves/plots_s4.py:21 | `int('<code>' + str(0).zfill(w))` equals `code * 10^w`; it takes no index, so one figure serves every index of the category |
| `Artifacts.FigureHandlesDistinct` | eureka/S4_generate_lightcurves/plots_s4.py:157 | for one channel count, the five categories get five different figure handles |
| `Artifacts.FigureHandleNumeral` | eureka/S4_generate_lightcurves/plots_s4.py:55-63 | the handle printed in decimal is the code followed by the zero field, the same digits as the index-0 file name (figure 4100 ↔ `Fig4100-Drift.png`) |
| `Artifacts.FileName` | eureka/S4_generate_lightcurves/plots_s4.py:37 | `outputdir + 'figs/Fig<code><str(idx).zfill(w)>-<tag>.png'` decodes back to exactly its category and index, for every index |
| `Artifacts.FileNameInjective` | eureka/S4_generate_lightcurves/plots_s4.py:137-162 | two file names under one output directory are equal only when category and index are equal |
| `Artifacts.FileNameLength` | eureka/S4_generate_lightcurves/plots_s4.py:104 | for an index below N, the name has a fixed length per category: directory + 8 + 2 + w + 1 + tag + 4 |
| `Indexing.Range` | eureka/S4_generate_lightcurves/plots_s4.py:133 | `range(lo, hi)` has `max(0, hi - lo)` elements, and element k is `lo + k` |
| `Indexing.RangeMembers` | eureka/S4_generate_lightcurves/plots_s4.py:134 | `x in range(lo, hi)` exactly when `lo <= x < hi` |
| `Indexing.Where` | eureka/S4_generate_lightcurves/plots_s4.py:57 | `np.where(mask == flag)` lists only positions that hold `flag`, in strictly increasing order |
| `Indexing.WhereComplete` | eureka/S4_generate_lightcurves/plots_s4.py:58 | no position holding `flag` is missed |
| `Indexing.WhereMembers` | eureka/S4_generate_lightcurves/plots_s4.py:57-58 | k is listed exactly when 0 ≤ k < len(mask) and `mask[k] == flag` |
| `Indexing.WhereCounts` | eureka/S4_generate_lightcurves/plots_s4.py:57-58 | the true positions and the false positions together number `len(mask)` |
| `Indexing.WhereAppend` | eureka/S4_generate_lightcurves/plots_s4.py:57 | appending one mask entry appends its position exactly when it holds `flag` |
| `Indexing.Take` | eureka/S4_generate_lightcurves/plots_s4.py:57 | `xs[idx]` succeeds exactly when every index is in bounds and gives the elements in index order. Otherwise it is IndexError naming an out-of-bounds index |
| `Unique.InsertSorted` | eureka/S4_generate_lightcurves/plots_s4.py:97 | inserting into a strictly increasing list keeps it strictly increasing and adds exactly one value |
| `Unique.SortedUnique` | eureka/S4_generate_lightcurves/plots_s4.py:97 | `np.unique(xs)` is strictly increasing and holds exactly the values of xs |
| `Unique.SortedListingUnique` | eureka/S4_generate_lightcurves/plots_s4.py:97 | two strictly increasing lists with the same elements are equal, so the result is determined by the set of values |
| `Unique.SortedUniqueOfSameValues` | eureka/S4_generate_lightcurves/plots_s4.py:97 | arrays with the same values give the same `np.unique`, whatever the order or repetition |
| `Unique.SortedUniqueOfSorted` | eureka/S4_generate_lightcurves/plots_s4.py:97 | a strictly increasing array is its own `np.unique` |
| `Plots.FigureFor` | eureka/S4_generate_lightcurves/plots_s4.py:129-137 | a plot's figure: handle `code * 10^w`, and a path that decodes to (category, index) |
| `Plots.BinnedLightcurveAsWritten` | eureka/S4_generate_lightcurves/plots_s4.py:21-37 | as written, every call raises. It is IndexError, naming the index and the length, from the first lookup outside the data: the lower edge, then the upper edge (line 23), then the first time stamp (line 25), then the flux row (line 27). When all of those succeed it is AttributeError for `np.nan.median` (line 27) |
| `Plots.BinnedLightcurve` | eureka/S4_generate_lightcurves/plots_s4.py:21-37 | with `np.nanmedian` at lines 27-28, it saves exactly when four lookups succeed: bandpass i has both edges, the data has a time stamp, flux and error rows i exist, and the flux attributes hold `time_units` (line 33). A missing bandpass raises IndexError; a missing `time_units` raises KeyError. The figure is 43·10^w and the file decodes to (1D light curve, i) |
| `Plots.BinnedLightcurvePathLength` | eureka/S4_generate_lightcurves/plots_s4.py:37 | for a saved bandpass i < N, the path is 20 characters plus w longer than the directory |
| `Plots.BinnedLightcurveNeverSaves` | eureka/S4_generate_lightcurves/plots_s4.py:27 | for every bandpass the corrected plot saves, the plot as written raises AttributeError instead |
| `Indexing.Lookup` | eureka/S4_generate_lightcurves/plots_s4.py:33 | `attrs[key]` gives the value when the key is present, and KeyError naming the key otherwise |
| `Indexing.At` | eureka/S4_generate_lightcurves/plots_s4.py:23 | `xs[i]` gives the element when i is in range, and IndexError naming i and the length otherwise |
| `Plots.DriftPoints` | eureka/S4_generate_lightcurves/plots_s4.py:57-58 | `arange(n_int)[where(mask == flag)]` paired with `drift1d[...]`. It succeeds exactly when every flagged frame is below `n_int` and below `len(drift1d)`. Then it lists each flagged frame once, in increasing order, with its own drift value |
| `Plots.Drift1d` | eureka/S4_generate_lightcurves/plots_s4.py:55-63 | drawn exactly when the mask fits `n_int` and `drift1d` (IndexError otherwise), on figure 41·10^w, saved as index 0 |
| `Plots.DriftPointsSelect` | eureka/S4_generate_lightcurves/plots_s4.py:57-58 | if mask and drift are as long as `n_int`, the points for `flag` are drawn, and frame k is among them exactly when `mask[k] == flag` |
| `Plots.DriftPartition` | eureka/S4_generate_lightcurves/plots_s4.py:57-58 | if mask, drift and `n_int` agree in length, the plot is drawn. Each frame is good iff its mask is false and interpolated iff true, so no frame is in both sets, and every point carries its frame's drift |
| `Plots.DriftPartitionSize` | eureka/S4_generate_lightcurves/plots_s4.py:57-58 | if mask, drift and `n_int` agree in length, the good and interpolated point counts sum to `n_int` |
| `Plots.WhereExample` | eureka/S4_generate_lightcurves/plots_s4.py:57-58 | `np.where` of mask [F,F,T,F,T] gives [0,1,3] for false and [2,4] for true |
| `Plots.DriftExample` | eureka/S4_generate_lightcurves/plots_s4.py:57-58 | mask [F,F,T,F,T] gives good points (0,d0),(1,d1),(3,d3) and interpolated points (2,d2),(4,d4) |
| `Plots.ChannelEdgeTicks` | eureka/S4_generate_lightcurves/plots_s4.py:94-97 | no ticks unless `nspecchan > 1`. With more channels, the ticks are strictly increasing and are exactly the values occurring in `wave_low` or `wave_hi` |
| `Plots.Least` | eureka/S4_generate_lightcurves/plots_s4.py:85 | `wave_1d.min()` of a non-empty axis is one of its values and no value is below it |
| `Plots.Greatest` | eureka/S4_generate_lightcurves/plots_s4.py:86 | `wave_1d.max()` of a non-empty axis is one of its values and no value is above it |
| `Plots.LcDriftcorr` | eureka/S4_generate_lightcurves/plots_s4.py:83-104 | drawn exactly when `wave_1d` is non-empty and `optspec` is 2-D. Otherwise ValueError: from `min()` on an empty axis (line 85), or from unpacking a shape of the wrong rank (line 87). When drawn: the extent spans the least to the greatest wavelength over `n_int` = the first dimension rows. The figure is 42·10^w and the file decodes to (2D light curve, 0). There are no ticks when `nspecchan <= 1`. Otherwise the ticks are strictly increasing and are exactly the values in `wave_low` or `wave_hi` |
| `Plots.TicksExample` | eureka/S4_generate_lightcurves/plots_s4.py:94-97 | channels (1,2),(2,3),(3,4) give ticks [1,2,3,4], with each shared edge once |
| `Plots.TicksDependOnValuesOnly` | eureka/S4_generate_lightcurves/plots_s4.py:97 | the ticks depend only on which edge values occur, not on their order or on whether a value is a lower or an upper bound |
| `Plots.FitSpectrumAxis` | eureka/S4_generate_lightcurves/plots_s4.py:134 | `range(d, nx - d)` has `nx - 2d` increasing elements when `nx ≥ 2d` (none otherwise), exactly the integers from d to `nx - d - 1` |
| `Plots.LagAxis` | eureka/S4_generate_lightcurves/plots_s4.py:160 | `range(-d, d + 1)` is `2d + 1` increasing integers from -d to d (empty for negative d), exactly those with -d ≤ x ≤ d |
| `Plots.Curve` | eureka/S4_generate_lightcurves/plots_s4.py:133 | `plot(xs, ys)` pairs the samples, and raises ValueError exactly when the lengths differ |
| `Plots.CcSpec` | eureka/S4_generate_lightcurves/plots_s4.py:129-137 | drawn exactly when `len(fit_spec) == max(0, nx - 2d)`. The reference sample j is at x = j, the fit sample j is at x = d + j, and the figure is 44's, saved under index n. Otherwise ValueError naming the axis length and `len(fit_spec)` |
| `Plots.ReferenceCurve` | eureka/S4_generate_lightcurves/plots_s4.py:132-133 | the reference spectrum is drawn over `range(nx)`: sample j at x = j, never raising |
| `Plots.FitCurve` | eureka/S4_generate_lightcurves/plots_s4.py:134 | the fit spectrum is drawn over the trimmed axis: sample j at x = d + j, or ValueError exactly when its length is not `max(0, nx - 2d)` |
| `Plots.CcSpecAligned` | eureka/S4_generate_lightcurves/plots_s4.py:132-134 | with `len(fit) == nx - 2d`, fit sample j is drawn at the same x as reference sample d + j |
| `Plots.CcVals` | eureka/S4_generate_lightcurves/plots_s4.py:157-162 | drawn exactly when `len(vals) == max(0, 2d + 1)`. Value j is at lag `j - d`, and the figure is 45's, saved under index n. Otherwise ValueError naming the lag count and `len(vals)` |

## Left out

- Rendering is not modelled. This covers every matplotlib call (`figure`,
  `clf`, `plot`, `errorbar`, `imshow`, `colorbar`, `secondary_xaxis`,
  `vlines`, `savefig`, `pause`, `close`) and the `hide_plots` branches. They
  are display and file I/O in a library outside this model. A plot is
  modelled as the handle, path and data series it hands over. The one
  matplotlib behaviour kept is that `plot` raises when x and y differ in
  length.
- The values of the flux normalisation and the MAD text (lines 27-30) are not
  modelled. They are floating-point statistics with NaN and masked-array
  semantics. The lookups they make are modelled. So is the AttributeError
  that line 27 raises as written (see "## Findings").
- Plots.BinnedLightcurve: models the handle and path that lines 21 and 37
  produce once line 27 reads `np.nanmedian`, the evidently intended
  function. As written, line 27 raises AttributeError on every call and the
  file is never saved. That behaviour is `Plots.BinnedLightcurveAsWritten`.
  The shape checks of `errorbar` (line 29) are not modelled; the record
  assumes the flux, error and time arrays that reach it agree in length.
- The 2D `normspec` normalisation (line 90) and the MAD title (line 93) are
  not modelled: they are floating point and display only. Of `optspec`, only
  its shape is read (line 87).
- Plots.LcDriftcorr: treats `wave_1d` as exact reals, so the NaN handling of
  `min()`/`max()` is not modelled. The `vlines` and `imshow` calls are
  rendering.
- `time_modifier` (line 25) and all title and label formatting (lines 23,
  34, 131, 159) are not modelled: they are float handling and cosmetics.
- Decimal.PadWidth: computes `floor(log10 N) + 1` exactly, not with IEEE
  `np.log10`. For N just below a large power of ten (around 10^15) the
  floating-point logarithm rounds up, and the source would pad one digit
  wider. That still gives distinct, readable names.
- Plots.FigureFor: the channel count must be at least 1, and so must it for
  every plot, `Plots.BinnedLightcurveAsWritten` included. Each plot's first
  line takes `np.log10` of the count. Zero gives -inf, and `int` raises
  OverflowError. A negative count gives NaN, and `int` raises ValueError.
  No count below 1 is a valid run.
- Decimal.Parse: reads the empty string as 0 where Python's `int('')`
  raises. The model only applies it to non-empty strings, except as the base
  case of its own recursion.
- Decimal.Str: covers non-negative integers only. Bandpass and integration
  numbers are never negative.
- `np.unique` with NaN wavelengths is not modelled: wavelengths are exact
  reals.

## Findings

| source | as written | input that shows it | evidently intended | confidence | as-written member | corrected member |
|---|---|---|---|---|---|---|
| eureka/S4_generate_lightcurves/plots_s4.py:27-28 | `np.nan.median(lc['data'][i], axis=0)` looks up `median` on the float `np.nan`, so line 27 raises AttributeError and the `savefig` at line 37 is never reached | any bandpass i that the light curve holds, with a `time_units` attribute, e.g. i = 0 with one channel and one time stamp | `np.nanmedian(lc['data'][i], axis=0)`, after which the figure is saved as `Fig43<i padded>-1D_LC.png` | high; not executed | `Plots.BinnedLightcurveAsWritten` (`Plots.BinnedLightcurveNeverSaves` exhibits it) | `Plots.BinnedLightcurve` |

=== FILE: artifacts.dfy ===
/** The artifact-addressing scheme of the stage-4 diagnostic plots: every plot
    draws on one resident figure per category, whose integer handle is the
    category code followed by a zero field of the pad width, and saves to
    `<outputdir>figs/Fig<code><zero-padded index>-<tag>.png`. */
module Artifacts {
  import opened Results
  import opened Decimal

  /** The five diagnostic kinds, one per plotting function. */
  datatype Category = Drift | LightCurve2D | LightCurve1D | CrossCorrSpectrum | CrossCorrValues {

    /** The figure code: two decimal digits, which is what the file-name
        decoder reads back. */
    function Code(): (r: nat)
      ensures 10 <= r < 100
    {
      match this
      case Drift => 41
      case LightCurve2D => 42
      case LightCurve1D => 43
      case CrossCorrSpectrum => 44
      case CrossCorrValues => 45
    }

    /** The descriptive part of the file name, between the '-' after the
        padded index and the extension. */
    function Tag(): (r: string)
      ensures |r| >= 5
      ensures forall k :: 0 <= k < |r| ==> r[k] != '-' && r[k] != '.'
    {
      match this
      case Drift => "Drift"
      case LightCurve2D => "2D_LC"
      case LightCurve1D => "1D_LC"
      case CrossCorrSpectrum => "CC_Spec"
      case CrossCorrValues => "CC_Vals"
    }
  }

  /** The category a figure code stands for, if any. */
  function CategoryOfCode(code: nat): (r: Option<Category>)
    ensures r.Some? ==> r.value.Code() == code
    ensures forall c: Category :: c.Code() == code ==> r == Some(c)
  {
    if code == 41 then Some(Drift)
    else if code == 42 then Some(LightCurve2D)
    else if code == 43 then Some(LightCurve1D)
    else if code == 44 then Some(CrossCorrSpectrum)
    else if code == 45 then Some(CrossCorrValues)
    else None
  }

  /** Distinct categories carry distinct tags, so the tag alone also tells
      the category. */
  lemma TagsDistinct(c1: Category, c2: Category)
    requires c1.Tag() == c2.Tag()
    ensures c1 == c2
  {
  }

  /** Every code prints as exactly two digits. */
  lemma CodeNumeral(c: Category)
    ensures |Str(c.Code())| == 2
    ensures Parse(Str(c.Code())) == c.Code()
  {
    ParseStr(c.Code());
  }

  /** The figure handle `int('<code>' + str(0).zfill(w))`: it is built from
      index 0 whatever index is being plotted, so all indices of one category
      share one figure, and its value is the code shifted left by w digits. */
  function FigureHandle(c: Category, nspecchan: int): (h: nat)
    requires nspecchan >= 1
    ensures h == c.Code() * Pow10(PadWidth(nspecchan))
  {
    var w := PadWidth(nspecchan);
    var code := Str(c.Code());
    var zeros := Padded(0, w);
    ParseAppend(code, zeros);
    ParseStr(c.Code());
    Parse(code + zeros)
  }

  /** For one channel count, the five categories use five different figures. */
  lemma FigureHandlesDistinct(c1: Category, c2: Category, nspecchan: int)
    requires nspecchan >= 1
    requires c1 != c2
    ensures FigureHandle(c1, nspecchan) != FigureHandle(c2, nspecchan)
  {
    var p := Pow10(PadWidth(nspecchan));
    assert c1.Code() != c2.Code();
    if c1.Code() < c2.Code() {
      MultiplyStrictly(c1.Code(), c2.Code(), p);
    } else {
      MultiplyStrictly(c2.Code(), c1.Code(), p);
    }
  }

  lemma MultiplyStrictly(a: nat, b: nat, p: nat)
    requires a < b && p >= 1
    ensures a * p < b * p
  {
  }

  /** The figure number printed in decimal is the code followed by the zero
      field, which is also the digit field of the index-0 file name. */
  lemma FigureHandleNumeral(c: Category, nspecchan: int)
    requires nspecchan >= 1
    ensures Str(FigureHandle(c, nspecchan)) == Str(c.Code()) + Padded(0, PadWidth(nspecchan))
  {
    var code := Str(c.Code());
    var s := code + Padded(0, PadWidth(nspecchan));
    CodeNumeral(c);
    ParseAppend(code, Padded(0, PadWidth(nspecchan)));
    assert s[0] == code[0] && code[0] != '0';
    StrParse(s);
  }

  /** The directory part and the fixed text before the code. */
  function Prefix(outputdir: string): string {
    outputdir + "figs/Fig"
  }

  /** The fixed text after the padded index. */
  function Suffix(c: Category): string {
    "-" + c.Tag() + ".png"
  }

  /** What a file name addresses: a category and an index. */
  datatype Artifact = Artifact(category: Category, index: nat)

  /** Reads a path back into the artifact it names, or None when the path is
      not a figure file under `outputdir`. */
  function DecodeFileName(outputdir: string, path: string): (r: Option<Artifact>)
    ensures r.Some? ==> |path| > |Prefix(outputdir)| + 2 + |Suffix(r.value.category)|
    ensures r.Some? ==> path[..|Prefix(outputdir)|] == Prefix(outputdir)
  {
    var prefix := Prefix(outputdir);
    if |path| < |prefix| || path[..|prefix|] != prefix then None
    else DecodeCodeAndIndex(path[|prefix|..])
  }

  /** Decodes what follows the prefix: two code digits, then the index. */
  function DecodeCodeAndIndex(text: string): (r: Option<Artifact>)
    ensures r.Some? ==> |text| > 2 + |Suffix(r.value.category)|
  {
    if |text| < 2 || !AllDigits(text[..2]) then None
    else match CategoryOfCode(Parse(text[..2]))
      case None => None
      case Some(c) => DecodeIndex(c, text[2..])
  }

  /** Decodes the padded index in front of the category's suffix. */
  function DecodeIndex(c: Category, text: string): (r: Option<Artifact>)
    ensures r.Some? ==> r.value.category == c && |text| > |Suffix(c)|
  {
    var suffix := Suffix(c);
    if |text| <= |suffix| || text[|text| - |suffix|..] != suffix then None
    else
      var digits := text[..|text| - |suffix|];
      if AllDigits(digits) then Some(Artifact(c, Parse(digits))) else None
  }

  /** `outputdir + 'figs/Fig<code>{}-<tag>.png'.format(str(idx).zfill(w))`.
      The name always decodes back to its category and index: zfill never
      truncates, so this holds for an index of any size, also one with more
      digits than the pad width. */
  function FileName(outputdir: string, c: Category, nspecchan: int, idx: nat): (path: string)
    requires nspecchan >= 1
    ensures DecodeFileName(outputdir, path) == Some(Artifact(c, idx))
  {
    var digits := Padded(idx, PadWidth(nspecchan));
    DecodeFileNameOf(outputdir, c, digits);
    Prefix(outputdir) + Str(c.Code()) + digits + Suffix(c)
  }

  lemma DecodeFileNameOf(outputdir: string, c: Category, digits: string)
    requires AllDigits(digits) && |digits| >= 1
    ensures DecodeFileName(outputdir, Prefix(outputdir) + Str(c.Code()) + digits + Suffix(c))
         == Some(Artifact(c, Parse(digits)))
  {
    var code := Str(c.Code());
    var suffix := Suffix(c);
    var text := code + digits + suffix;
    ConcatAssoc(Prefix(outputdir), code, digits, suffix);
    DecodeAfterPrefix(outputdir, text);
    DecodeCodeAndIndexOf(c, digits);
  }

  lemma ConcatAssoc(a: string, b: string, c: string, d: string)
    ensures a + b + c + d == a + (b + c + d)
  {
  }

  lemma DecodeAfterPrefix(outputdir: string, text: string)
    ensures DecodeFileName(outputdir, Prefix(outputdir) + text) == DecodeCodeAndIndex(text)
  {
    var prefix := Prefix(outputdir);
    var path := prefix + text;
    assert path[..|prefix|] == prefix;
    assert path[|prefix|..] == text;
  }

  lemma DecodeCodeAndIndexOf(c: Category, digits: string)
    requires AllDigits(digits) && |digits| >= 1
    ensures DecodeCodeAndIndex(Str(c.Code()) + digits + Suffix(c)) == Some(Artifact(c, Parse(digits)))
  {
    var code := Str(c.Code());
    var rest := digits + Suffix(c);
    var text := code + rest;
    assert code + digits + Suffix(c) == text;
    CodeNumeral(c);
    assert text[..2] == code;
    assert text[2..] == rest;
    assert AllDigits(code);
    assert CategoryOfCode(Parse(code)) == Some(c);
    DecodeIndexOf(c, digits);
  }

  lemma DecodeIndexOf(c: Category, digits: string)
    requires AllDigits(digits) && |digits| >= 1
    ensures DecodeIndex(c, digits + Suffix(c)) == Some(Artifact(c, Parse(digits)))
  {
    var suffix := Suffix(c);
    var text := digits + suffix;
    assert text[|text| - |suffix|..] == suffix;
    assert text[..|text| - |suffix|] == digits;
  }

  /** Within one run, distinct (category, index) pairs never share a file:
      the decoder does not depend on the channel count, so the names are
      injective even across channel counts. */
  lemma FileNameInjective(outputdir: string, c1: Category, n1: int, i1: nat,
                          c2: Category, n2: int, i2: nat)
    requires n1 >= 1 && n2 >= 1
    requires FileName(outputdir, c1, n1, i1) == FileName(outputdir, c2, n2, i2)
    ensures c1 == c2 && i1 == i2
  {
  }

  /** An index below the channel count is written with exactly the pad width,
      so the file name has a fixed length per category. */
  lemma FileNameLength(outputdir: string, c: Category, nspecchan: int, idx: nat)
    requires nspecchan >= 1
    ensures idx < nspecchan ==>
      |FileName(outputdir, c, nspecchan, idx)| == |outputdir| + 8 + 2 + PadWidth(nspecchan) + 1 + |c.Tag()| + 4
  {
    CodeNumeral(c);
    if idx < nspecchan {
      PaddedIndexWidth(idx, nspecchan);
    }
  }
}

=== FILE: decimal.dfy ===
/** Decimal text of non-negative integers as Python produces and reads it:
    `str(n)`, `int(s)` on a digit string, `s.zfill(width)`, and the pad width
    `int(np.floor(np.log10(N)) + 1)` computed as an exact digit count. */
module Decimal {

  function Max(a: int, b: int): int {
    if a >= b then a else b
  }

  function Pow10(k: nat): (r: nat)
    ensures r >= 1
  {
    if k == 0 then 1 else 10 * Pow10(k - 1)
  }

  lemma {:induction false} Pow10Monotone(a: nat, b: nat)
    requires a <= b
    ensures Pow10(a) <= Pow10(b)
    decreases b
  {
    if a < b {
      Pow10Monotone(a, b - 1);
    }
  }

  predicate IsDigit(c: char) {
    '0' <= c <= '9'
  }

  predicate AllDigits(s: string) {
    forall k :: 0 <= k < |s| ==> IsDigit(s[k])
  }

  function DigitChar(d: nat): (c: char)
    requires d < 10
    ensures IsDigit(c)
  {
    ('0' as int + d) as char
  }

  function DigitValue(c: char): (d: nat)
    requires IsDigit(c)
    ensures d < 10
  {
    c as int - '0' as int
  }

  /** `k` copies of the character '0'. */
  function Zeros(k: nat): (s: string)
    ensures |s| == k
    ensures forall j :: 0 <= j < k ==> s[j] == '0'
  {
    seq(k, _ => '0')
  }

  /** Python's `str(n)` for a non-negative integer: the shortest decimal
      numeral, so it has no leading zero and its length is the digit count
      of `n` (one for zero). */
  function Str(n: nat): (s: string)
    ensures |s| >= 1 && AllDigits(s)
    ensures |s| > 1 ==> s[0] != '0'
    ensures n < Pow10(|s|)
    ensures |s| == 1 || Pow10(|s| - 1) <= n
  {
    if n < 10 then [DigitChar(n)] else Str(n / 10) + [DigitChar(n % 10)]
  }

  /** Python's `int(s)` on a string of decimal digits; leading zeros are
      accepted.  The empty string, on which `int` raises, is only ever reached
      as the base case of the recursion and reads as 0. */
  function Parse(s: string): (n: nat)
    requires AllDigits(s)
    ensures n < Pow10(|s|)
    ensures |s| == 1 ==> n == DigitValue(s[0])
  {
    if |s| == 0 then 0 else 10 * Parse(s[..|s| - 1]) + DigitValue(s[|s| - 1])
  }

  /** Reading back what `str` wrote gives the number. */
  lemma {:induction false} ParseStr(n: nat)
    ensures Parse(Str(n)) == n
    decreases n
  {
    if n >= 10 {
      var s := Str(n);
      assert s[..|s| - 1] == Str(n / 10);
      ParseStr(n / 10);
    }
  }

  /** Numerals are injective: distinct numbers never print alike. */
  lemma StrInjective(m: nat, n: nat)
    requires Str(m) == Str(n)
    ensures m == n
  {
    ParseStr(m);
    ParseStr(n);
  }

  lemma ShiftDigit(x: int, p: int, y: int, d: int)
    ensures 10 * (x * p + y) + d == x * (10 * p) + (10 * y + d)
  {
  }

  lemma {:induction false} ParseAppend(a: string, b: string)
    requires AllDigits(a) && AllDigits(b)
    ensures AllDigits(a + b)
    ensures Parse(a + b) == Parse(a) * Pow10(|b|) + Parse(b)
    decreases |b|
  {
    assert AllDigits(a + b) by {
      forall k | 0 <= k < |a + b|
        ensures IsDigit((a + b)[k])
      {
        if k >= |a| {
          assert (a + b)[k] == b[k - |a|];
        }
      }
    }
    if |b| == 0 {
      assert a + b == a;
    } else {
      var ab := a + b;
      var b' := b[..|b| - 1];
      assert ab[..|ab| - 1] == a + b';
      ParseAppend(a, b');
      var d := DigitValue(b[|b| - 1]);
      assert ab[|ab| - 1] == b[|b| - 1];
      assert Parse(ab) == 10 * Parse(a + b') + d;
      assert Parse(b) == 10 * Parse(b') + d;
      ShiftDigit(Parse(a), Pow10(|b'|), Parse(b'), d);
    }
  }

  lemma {:induction false} ParseZeros(k: nat)
    ensures AllDigits(Zeros(k))
    ensures Parse(Zeros(k)) == 0
    decreases k
  {
    if k > 0 {
      assert Zeros(k)[..k - 1] == Zeros(k - 1);
      ParseZeros(k - 1);
    }
  }

  /** Leading zeros do not change the value `int` reads. */
  lemma ParseLeadingZeros(k: nat, s: string)
    requires AllDigits(s)
    ensures AllDigits(Zeros(k) + s)
    ensures Parse(Zeros(k) + s) == Parse(s)
  {
    ParseZeros(k);
    ParseAppend(Zeros(k), s);
  }

  /** True when `s` starts with a sign character, which `zfill` keeps in
      front of the padding. */
  predicate HasSign(s: string) {
    |s| > 0 && (s[0] == '+' || s[0] == '-')
  }

  /** Python's `s.zfill(width)`: left-pads with '0' up to `width` characters,
      keeping a leading sign in front, and never truncates. */
  function ZFill(s: string, width: int): (r: string)
    ensures |r| == Max(|s|, width)
    ensures |s| >= width ==> r == s
    ensures !HasSign(s) ==>
      r[|r| - |s|..] == s && forall k :: 0 <= k < |r| - |s| ==> r[k] == '0'
    ensures HasSign(s) ==>
      r[0] == s[0] && r[|r| - |s| + 1..] == s[1..]
      && forall k :: 1 <= k < |r| - |s| + 1 ==> r[k] == '0'
  {
    if |s| >= width then s
    else if HasSign(s) then [s[0]] + Zeros(width - |s|) + s[1..]
    else Zeros(width - |s|) + s
  }

  /** `str(i).zfill(width)`: the zero-padded index used in figure file names. */
  function Padded(i: nat, width: int): (r: string)
    ensures |r| == Max(|Str(i)|, width)
    ensures AllDigits(r)
    ensures Parse(r) == i
  {
    var s := Str(i);
    var k := Max(|s|, width) - |s|;
    assert !HasSign(s) by {
      assert IsDigit(s[0]);
    }
    assert ZFill(s, width) == Zeros(k) + s by {
      if |s| >= width {
        assert Zeros(0) + s == s;
      }
    }
    ParseStr(i);
    ParseLeadingZeros(k, s);
    ZFill(s, width)
  }

  /** floor(log10 n) for n >= 1, computed exactly: the exponent of the largest
      power of ten not above n. */
  function FloorLog10(n: int): (k: nat)
    requires n >= 1
    ensures Pow10(k) <= n < Pow10(k + 1)
  {
    if n < 10 then 0 else 1 + FloorLog10(n / 10)
  }

  /** Two widths that both bracket n between consecutive powers of ten agree. */
  lemma DigitCountUnique(n: nat, a: nat, b: nat)
    requires Pow10(a) <= n < Pow10(a + 1)
    requires Pow10(b) <= n < Pow10(b + 1)
    ensures a == b
  {
    if a < b {
      Pow10Monotone(a + 1, b);
    } else if b < a {
      Pow10Monotone(b + 1, a);
    }
  }

  /** `int(np.floor(np.log10(N)) + 1)`, the pad width every plot uses: the
      number of decimal digits of N, never zero. */
  function PadWidth(n: int): (w: nat)
    requires n >= 1
    ensures w >= 1
    ensures w == |Str(n)|
  {
    FloorLog10IsDigitCount(n);
    FloorLog10(n) + 1
  }

  lemma FloorLog10IsDigitCount(n: int)
    requires n >= 1
    ensures FloorLog10(n) + 1 == |Str(n)|
  {
    var s := Str(n);
    if |s| > 1 {
      DigitCountUnique(n, FloorLog10(n), |s| - 1);
    }
  }

  /** An index below N pads to exactly the width of N, so every index of one
      run is written with the same number of digits. */
  lemma {:induction false} PaddedIndexWidth(i: nat, n: int)
    requires n >= 1 && i < n
    ensures |Padded(i, PadWidth(n))| == PadWidth(n)
  {
    var w := PadWidth(n);
    var s := Str(i);
    if |s| > w {
      Pow10Monotone(w, |s| - 1);
      assert false;
    }
  }

  /** A digit string of value at least one and without a leading zero has
      exactly as many digits as its value. */
  lemma ParseLowerBound(s: string)
    requires AllDigits(s) && |s| >= 1 && s[0] != '0'
    ensures Pow10(|s| - 1) <= Parse(s)
  {
    var head, tail := s[..1], s[1..];
    assert head + tail == s;
    ParseAppend(head, tail);
    assert head[..0] == [];
    assert Parse(head) == DigitValue(s[0]) >= 1;
    MultiplyAtLeastOne(Parse(head), Pow10(|tail|));
  }

  lemma MultiplyAtLeastOne(x: nat, p: nat)
    requires x >= 1
    ensures x * p >= p
  {
  }

  /** The other half of the round trip: a canonical numeral (no leading zero
      unless it is "0") is what `str` prints for the value `int` reads. */
  lemma {:induction false} StrParse(s: string)
    requires AllDigits(s) && |s| >= 1
    requires |s| > 1 ==> s[0] != '0'
    ensures Str(Parse(s)) == s
    decreases |s|
  {
    var n := Parse(s);
    if |s| == 1 {
      assert s[..0] == [];
      assert [DigitChar(DigitValue(s[0]))] == s;
    } else {
      var s' := s[..|s| - 1];
      ParseLowerBound(s);
      Pow10Monotone(1, |s| - 1);
      assert n >= 10;
      assert n / 10 == Parse(s') && n % 10 == DigitValue(s[|s| - 1]);
      StrParse(s');
      assert s' + [s[|s| - 1]] == s;
    }
  }

  /** Python's `<` on strings: lexicographic, a proper prefix first. */
  predicate LexLess(a: string, b: string) {
    if |a| == 0 then |b| > 0
    else if |b| == 0 then false
    else a[0] < b[0] || (a[0] == b[0] && LexLess(a[1..], b[1..]))
  }

  /** Comparing equal-length strings extended by one character each: the
      prefixes decide unless they are equal, and then the last characters do. */
  lemma {:induction false} LexLessAppend(a: string, b: string, x: char, y: char)
    requires |a| == |b|
    ensures LexLess(a + [x], b + [y]) <==> LexLess(a, b) || (a == b && x < y)
    decreases |a|
  {
    if |a| == 0 {
      assert a + [x] == [x] && b + [y] == [y];
    } else {
      assert (a + [x])[1..] == a[1..] + [x];
      assert (b + [y])[1..] == b[1..] + [y];
      LexLessAppend(a[1..], b[1..], x, y);
      if a[0] == b[0] {
        assert a == b <==> a[1..] == b[1..] by {
          if a[1..] == b[1..] {
            assert a == [a[0]] + a[1..] && b == [b[0]] + b[1..];
          }
        }
      }
    }
  }

  /** Digit strings of one width that read as the same number are equal. */
  lemma {:induction false} ParseInjectiveFixedWidth(a: string, b: string)
    requires AllDigits(a) && AllDigits(b) && |a| == |b|
    requires Parse(a) == Parse(b)
    ensures a == b
    decreases |a|
  {
    if |a| > 0 {
      var a', b' := a[..|a| - 1], b[..|b| - 1];
      assert Parse(a') == Parse(b') && DigitValue(a[|a| - 1]) == DigitValue(b[|b| - 1]);
      ParseInjectiveFixedWidth(a', b');
      assert a == a' + [a[|a| - 1]] && b == b' + [b[|b| - 1]];
    }
  }

  /** Among digit strings of one width, numeric order is string order, so
      sorting the files by name sorts them by index. */
  lemma {:induction false} ParseOrderIsLexOrder(a: string, b: string)
    requires AllDigits(a) && AllDigits(b) && |a| == |b|
    ensures Parse(a) < Parse(b) <==> LexLess(a, b)
    decreases |a|
  {
    if |a| == 0 {
      assert !LexLess(a, b);
    } else {
      var a', b' := a[..|a| - 1], b[..|b| - 1];
      var x, y := a[|a| - 1], b[|b| - 1];
      ParseOrderIsLexOrder(a', b');
      assert a == a' + [x] && b == b' + [y];
      LexLessAppend(a', b', x, y);
      if Parse(a') == Parse(b') {
        ParseInjectiveFixedWidth(a', b');
      } else if a' == b' {
        assert false;
      }
    }
  }

  /** Indices below N, padded to the width of N, compare as strings the way
      they compare as numbers. */
  lemma PaddedOrder(i: nat, j: nat, n: int)
    requires n >= 1 && i < n && j < n
    ensures i < j <==> LexLess(Padded(i, PadWidth(n)), Padded(j, PadWidth(n)))
  {
    PaddedIndexWidth(i, n);
    PaddedIndexWidth(j, n);
    ParseOrderIsLexOrder(Padded(i, PadWidth(n)), Padded(j, PadWidth(n)));
  }

  /** One channel still gets one digit; ten channels get two. */
  lemma PadWidthExamples()
    ensures PadWidth(1) == 1 && PadWidth(9) == 1
    ensures PadWidth(10) == 2 && PadWidth(99) == 2
    ensures PadWidth(100) == 3
  {
  }
}

=== FILE: indexing.dfy ===
/** The index arithmetic the plots borrow from Python and numpy: `range`,
    `np.arange`, `np.where` on a one-dimensional boolean mask, and integer-array
    indexing `xs[idx]`, which raises IndexError on an index past the end. */
module Indexing {
  import opened Results

  /** Python's `range(lo, hi)`; `np.arange(n)` is `Range(0, n)`. */
  function Range(lo: int, hi: int): (r: seq<int>)
    ensures |r| == if hi > lo then hi - lo else 0
    ensures forall k :: 0 <= k < |r| ==> r[k] == lo + k
    decreases hi - lo
  {
    if hi <= lo then [] else [lo] + Range(lo + 1, hi)
  }

  /** A range holds exactly the integers from `lo` up to but excluding `hi`. */
  lemma RangeMembers(lo: int, hi: int)
    ensures forall x :: x in Range(lo, hi) <==> lo <= x < hi
  {
    var r := Range(lo, hi);
    forall x | lo <= x < hi
      ensures x in r
    {
      assert r[x - lo] == x;
    }
  }

  /** Strictly increasing integers: every element below all later ones. */
  predicate StrictlyIncreasingInts(s: seq<int>) {
    forall i, j :: 0 <= i < j < |s| ==> s[i] < s[j]
  }

  /** `np.where(mask == flag)`: the positions holding `flag`, in increasing
      order, each listed once. */
  function Where(mask: seq<bool>, flag: bool): (r: seq<nat>)
    ensures forall j :: 0 <= j < |r| ==> r[j] < |mask| && mask[r[j]] == flag
    ensures StrictlyIncreasingInts(r)
  {
    if |mask| == 0 then []
    else
      var init := Where(mask[..|mask| - 1], flag);
      if mask[|mask| - 1] == flag then init + [|mask| - 1] else init
  }

  /** No position holding `flag` is missed. */
  lemma {:induction false} WhereComplete(mask: seq<bool>, flag: bool)
    ensures forall k :: 0 <= k < |mask| && mask[k] == flag ==> k in Where(mask, flag)
    decreases |mask|
  {
    if |mask| > 0 {
      var init := mask[..|mask| - 1];
      WhereComplete(init, flag);
      forall k | 0 <= k < |mask| - 1 && mask[k] == flag
        ensures k in Where(mask, flag)
      {
        assert init[k] == mask[k];
      }
    }
  }

  /** An integer is listed exactly when it is a position holding `flag`. */
  lemma WhereMembers(mask: seq<bool>, flag: bool, k: int)
    ensures k in Where(mask, flag) <==> 0 <= k < |mask| && mask[k] == flag
  {
    WhereComplete(mask, flag);
    var r := Where(mask, flag);
    if k in r {
      var j :| 0 <= j < |r| && r[j] == k;
    }
  }

  /** Appending one mask entry appends its position exactly when it holds
      `flag`. */
  lemma WhereAppend(mask: seq<bool>, b: bool, flag: bool)
    ensures Where(mask + [b], flag) == Where(mask, flag) + (if b == flag then [|mask|] else [])
  {
    var m := mask + [b];
    assert m[..|m| - 1] == mask;
    assert m[|m| - 1] == b;
  }

  /** The positions of `true` and of `false` together number the whole mask. */
  lemma {:induction false} WhereCounts(mask: seq<bool>)
    ensures |Where(mask, true)| + |Where(mask, false)| == |mask|
    decreases |mask|
  {
    if |mask| > 0 {
      WhereCounts(mask[..|mask| - 1]);
    }
  }

  /** Indexing one element, `xs[i]` with a non-negative `i`: the element, or
      IndexError past the end. */
  function At<T>(xs: seq<T>, i: nat): (r: Result<T>)
    ensures r.Ok? <==> i < |xs|
    ensures r.Ok? ==> r.value == xs[i]
    ensures r.Err? ==> r.error == IndexOutOfBounds(i, |xs|)
  {
    if i < |xs| then Ok(xs[i]) else Err(IndexOutOfBounds(i, |xs|))
  }

  /** Dictionary lookup `m[key]`: the value, or KeyError when the key is
      missing. */
  function Lookup(m: map<string, string>, key: string): (r: Result<string>)
    ensures r.Ok? <==> key in m
    ensures r.Ok? ==> r.value == m[key]
    ensures r.Err? ==> r.error == KeyError(key)
  {
    if key in m then Ok(m[key]) else Err(KeyError(key))
  }

  /** numpy integer-array indexing `xs[idx]` with non-negative indices: the
      elements at `idx`, in that order, or IndexError at the first index past
      the end. */
  function Take<T>(xs: seq<T>, idx: seq<nat>): (r: Result<seq<T>>)
    ensures r.Ok? <==> forall j :: 0 <= j < |idx| ==> idx[j] < |xs|
    ensures r.Ok? ==> |r.value| == |idx|
    ensures r.Ok? ==> forall j :: 0 <= j < |idx| ==> r.value[j] == xs[idx[j]]
    ensures r.Err? ==> r.error.IndexOutOfBounds? && r.error.index >= |xs| && r.error.size == |xs|
  {
    if |idx| == 0 then Ok([])
    else if idx[0] >= |xs| then Err(IndexOutOfBounds(idx[0], |xs|))
    else
      var rest :- Take(xs, idx[1..]);
      Ok([xs[idx[0]]] + rest)
  }
}

=== FILE: plots.dfy ===
/** The five stage-4 diagnostic plots, each modelled as the pure description of
    what it hands to the renderer: the figure handle it draws on, the path it
    saves to, and the data series it derives (drift points split by the drift
    mask, channel-edge ticks, cross-correlation curves). */
module Plots {
  import opened Results
  import opened Decimal
  import opened Artifacts
  import opened Indexing
  import opened Unique

  /** The settings the plots read from the metadata object. */
  datatype Meta = Meta(
    nspecchan: int,
    nInt: int,
    outputdir: string,
    driftRange: int,
    waveLow: seq<real>,
    waveHi: seq<real>)

  /** A resident figure and the file it is saved to. */
  datatype Figure = Figure(handle: nat, path: string)

  /** One plotted sample. */
  datatype Point = Point(x: int, y: real)

  datatype DriftPlot = DriftPlot(figure: Figure, good: seq<Point>, interpolated: seq<Point>)
  datatype FluxMapPlot = FluxMapPlot(figure: Figure, wmin: real, wmax: real, rows: nat, ticks: seq<real>)
  datatype SpectrumPlot = SpectrumPlot(figure: Figure, reference: seq<Point>, current: seq<Point>)
  datatype ValuesPlot = ValuesPlot(figure: Figure, values: seq<Point>)

  /** The x positions of a curve. */
  function Xs(ps: seq<Point>): seq<int> {
    seq(|ps|, j requires 0 <= j < |ps| => ps[j].x)
  }

  /** The figure of category `c` for index `idx`: the shared handle of the
      category and the file name of the index. */
  function FigureFor(meta: Meta, c: Category, idx: nat): (f: Figure)
    requires meta.nspecchan >= 1
    ensures f.handle == c.Code() * Pow10(PadWidth(meta.nspecchan))
    ensures DecodeFileName(meta.outputdir, f.path) == Some(Artifact(c, idx))
  {
    Figure(FigureHandle(c, meta.nspecchan), FileName(meta.outputdir, c, meta.nspecchan, idx))
  }

  /** matplotlib's `plot(xs, ys)`: pairs the samples, and raises ValueError
      when the two arrays differ in length. */
  function Curve(xs: seq<int>, ys: seq<real>): (r: Result<seq<Point>>)
    ensures r.Ok? <==> |xs| == |ys|
    ensures r.Ok? ==> |r.value| == |xs| && forall j :: 0 <= j < |xs| ==> r.value[j] == Point(xs[j], ys[j])
    ensures r.Err? ==> r.error == LengthMismatch(|xs|, |ys|)
  {
    if |xs| != |ys| then Err(LengthMismatch(|xs|, |ys|))
    else Ok(seq(|xs|, j requires 0 <= j < |xs| => Point(xs[j], ys[j])))
  }

  // ---------------------------------------------------------------------------
  // binned_lightcurve: the bandpass light curve, figure 43, file per bandpass

  /** The parts of the light-curve dataset `lc` that the bandpass plot reads:
      the channel edges, the time stamps, the flux and error rows, and the
      attributes of the flux array. */
  datatype LightCurve = LightCurve(
    waveLow: seq<real>,
    waveHi: seq<real>,
    time: seq<real>,
    data: seq<seq<real>>,
    err: seq<seq<real>>,
    dataAttrs: map<string, string>)

  /** Bandpass `i` can be read: its two edges (the title), a first time stamp
      (the time offset), and its flux and error rows. */
  predicate HasBandpass(lc: LightCurve, i: nat) {
    i < |lc.waveLow| && i < |lc.waveHi| && |lc.time| > 0 && i < |lc.data| && i < |lc.err|
  }

  /** The plot as the source is written: the title reads both edges of the
      bandpass, the time offset reads the first time stamp, and the
      normalisation reads the flux row and then looks up `median` on `np.nan`,
      which is a float and has no such attribute.  Every call raises, so the
      file is never saved: IndexError from the first lookup that falls
      outside the data, AttributeError when they all succeed. */
  function BinnedLightcurveAsWritten(meta: Meta, lc: LightCurve, i: nat): (r: Result<Figure>)
    requires meta.nspecchan >= 1
    ensures r.Err?
    ensures r.error.AttributeError? <==> i < |lc.waveLow| && i < |lc.waveHi| && |lc.time| > 0 && i < |lc.data|
    ensures r.error.IndexOutOfBounds? ==> r.error.index >= r.error.size
    ensures i >= |lc.waveLow| ==> r.error == IndexOutOfBounds(i, |lc.waveLow|)
    ensures i < |lc.waveLow| && i >= |lc.waveHi| ==> r.error == IndexOutOfBounds(i, |lc.waveHi|)
    ensures i < |lc.waveLow| && i < |lc.waveHi| && |lc.time| == 0 ==> r.error == IndexOutOfBounds(0, 0)
    ensures i < |lc.waveLow| && i < |lc.waveHi| && |lc.time| > 0 && i >= |lc.data| ==>
      r.error == IndexOutOfBounds(i, |lc.data|)
  {
    var low :- At(lc.waveLow, i);
    var high :- At(lc.waveHi, i);
    var start :- At(lc.time, 0);
    var row :- At(lc.data, i);
    Err(AttributeError("float", "median"))
  }

  /** The plot with the normalisation reading `np.nanmedian`, as intended:
      after the lookups of the title, the time offset, the flux and error
      rows and the time unit succeed, the figure is saved under bandpass
      `i`. */
  function BinnedLightcurve(meta: Meta, lc: LightCurve, i: nat): (r: Result<Figure>)
    requires meta.nspecchan >= 1
    ensures r.Ok? <==> HasBandpass(lc, i) && "time_units" in lc.dataAttrs
    ensures r.Err? && !HasBandpass(lc, i) ==> r.error.IndexOutOfBounds? && r.error.index >= r.error.size
    ensures r.Err? && HasBandpass(lc, i) ==> r.error == KeyError("time_units")
    ensures r.Ok? ==> r.value == FigureFor(meta, LightCurve1D, i)
    ensures r.Ok? ==> r.value.handle == 43 * Pow10(PadWidth(meta.nspecchan))
    ensures r.Ok? ==> DecodeFileName(meta.outputdir, r.value.path) == Some(Artifact(LightCurve1D, i))
  {
    var low :- At(lc.waveLow, i);
    var high :- At(lc.waveHi, i);
    var start :- At(lc.time, 0);
    var row :- At(lc.data, i);
    var errors :- At(lc.err, i);
    var units :- Lookup(lc.dataAttrs, "time_units");
    Ok(FigureFor(meta, LightCurve1D, i))
  }

  /** For a bandpass below the channel count, the saved path is 20 characters
      plus the pad width longer than the output directory. */
  lemma BinnedLightcurvePathLength(meta: Meta, lc: LightCurve, i: nat)
    requires meta.nspecchan >= 1 && i < meta.nspecchan
    requires BinnedLightcurve(meta, lc, i).Ok?
    ensures |BinnedLightcurve(meta, lc, i).value.path| == |meta.outputdir| + 20 + PadWidth(meta.nspecchan)
  {
    FileNameLength(meta.outputdir, LightCurve1D, meta.nspecchan, i);
  }

  /** The discrepancy: whenever the intended plot saves its file, the plot as
      written raises AttributeError instead. */
  lemma BinnedLightcurveNeverSaves(meta: Meta, lc: LightCurve, i: nat)
    requires meta.nspecchan >= 1
    requires BinnedLightcurve(meta, lc, i).Ok?
    ensures BinnedLightcurveAsWritten(meta, lc, i) == Err(AttributeError("float", "median"))
  {
  }

  // ---------------------------------------------------------------------------
  // drift1d: drift per frame, split by the drift mask, figure 41, one file

  /** `np.arange(n_int)[np.where(mask == flag)]` paired with
      `drift1d[np.where(mask == flag)]`: the frames whose mask entry is `flag`,
      in frame order, each with its drift value; IndexError when such a frame
      lies past `n_int` or past the end of `drift1d`. */
  function DriftPoints(nInt: int, mask: seq<bool>, drift: seq<real>, flag: bool): (r: Result<seq<Point>>)
    ensures r.Ok? <==> forall k :: 0 <= k < |mask| && mask[k] == flag ==> k < nInt && k < |drift|
    ensures r.Ok? ==> Xs(r.value) == Where(mask, flag)
    ensures r.Ok? ==> forall j :: 0 <= j < |r.value| ==>
      0 <= r.value[j].x < |mask| && mask[r.value[j].x] == flag && r.value[j].y == drift[r.value[j].x]
    ensures r.Ok? ==> forall k :: 0 <= k < |mask| && mask[k] == flag ==> k in Xs(r.value)
    ensures r.Ok? ==> StrictlyIncreasingInts(Xs(r.value))
    ensures r.Err? ==> r.error.IndexOutOfBounds? && r.error.index >= r.error.size
  {
    var idx := Where(mask, flag);
    WhereComplete(mask, flag);
    WhereInBounds(mask, flag, nInt, |drift|);
    var frames :- Take(Range(0, nInt), idx);
    var values :- Take(drift, idx);
    TakeArange(nInt, idx, frames);
    var points := Pair(idx, values);
    assert forall k :: k in idx ==> k in Xs(points);
    Ok(points)
  }

  /** The flagged positions fit an array of length `size` exactly when every
      flagged position lies below `size`. */
  lemma WhereInBounds(mask: seq<bool>, flag: bool, nInt: int, size: nat)
    ensures (forall j :: 0 <= j < |Where(mask, flag)| ==> Where(mask, flag)[j] < nInt && Where(mask, flag)[j] < size)
        <==> (forall k :: 0 <= k < |mask| && mask[k] == flag ==> k < nInt && k < size)
  {
    var idx := Where(mask, flag);
    if forall k :: 0 <= k < |mask| && mask[k] == flag ==> k < nInt && k < size {
      forall j | 0 <= j < |idx|
        ensures idx[j] < nInt && idx[j] < size
      {
        var k := idx[j];
        assert 0 <= k < |mask| && mask[k] == flag;
      }
    } else {
      var k :| 0 <= k < |mask| && mask[k] == flag && !(k < nInt && k < size);
      WhereMembers(mask, flag, k);
      var j :| 0 <= j < |idx| && idx[j] == k;
      assert !(idx[j] < nInt && idx[j] < size);
    }
  }

  /** Indexing `np.arange(n)` with valid indices gives the indices back. */
  lemma TakeArange(nInt: int, idx: seq<nat>, frames: seq<int>)
    requires Take(Range(0, nInt), idx) == Ok(frames)
    ensures frames == idx
  {
  }

  /** Pairs frame numbers with values. */
  function Pair(idx: seq<nat>, values: seq<real>): (ps: seq<Point>)
    requires |idx| == |values|
    ensures |ps| == |idx| && Xs(ps) == idx
    ensures forall j :: 0 <= j < |ps| ==> ps[j] == Point(idx[j], values[j])
  {
    seq(|idx|, j requires 0 <= j < |idx| => Point(idx[j], values[j]))
  }

  /** The drift plot: good points are those with mask false, interpolated
      points those with mask true. */
  function Drift1d(meta: Meta, driftmask: seq<bool>, drift1d: seq<real>): (r: Result<DriftPlot>)
    requires meta.nspecchan >= 1
    ensures r.Ok? <==> |driftmask| == 0 || (|driftmask| <= meta.nInt && |driftmask| <= |drift1d|)
    ensures r.Ok? ==> r.value.figure == FigureFor(meta, Drift, 0)
    ensures r.Ok? ==> DriftPoints(meta.nInt, driftmask, drift1d, false) == Ok(r.value.good)
    ensures r.Ok? ==> DriftPoints(meta.nInt, driftmask, drift1d, true) == Ok(r.value.interpolated)
    ensures r.Err? ==> r.error.IndexOutOfBounds? && r.error.index >= r.error.size
  {
    var good :- DriftPoints(meta.nInt, driftmask, drift1d, false);
    var interpolated :- DriftPoints(meta.nInt, driftmask, drift1d, true);
    Ok(DriftPlot(FigureFor(meta, Drift, 0), good, interpolated))
  }

  /** With a mask and a drift series as long as `n_int`, the points of `flag`
      are drawn, and frame k is among them exactly when its mask entry is
      `flag`. */
  lemma DriftPointsSelect(nInt: int, mask: seq<bool>, drift: seq<real>, flag: bool)
    requires |mask| == |drift| == nInt
    ensures DriftPoints(nInt, mask, drift, flag).Ok?
    ensures forall k :: 0 <= k < nInt ==> (k in Xs(DriftPoints(nInt, mask, drift, flag).value) <==> mask[k] == flag)
  {
    var r := DriftPoints(nInt, mask, drift, flag);
    assert r.Ok?;
    forall k | 0 <= k < nInt
      ensures k in Xs(r.value) <==> mask[k] == flag
    {
      WhereMembers(mask, flag, k);
    }
  }

  /** With a mask and a drift series of length `n_int`, the plot is drawn and
      its two point sets partition the frames 0..n_int-1: every frame appears
      in exactly the set its mask entry selects (so no frame is in both), and
      each point carries its own frame's drift value. */
  lemma DriftPartition(meta: Meta, driftmask: seq<bool>, drift1d: seq<real>)
    requires meta.nspecchan >= 1
    requires |driftmask| == |drift1d| == meta.nInt
    ensures Drift1d(meta, driftmask, drift1d).Ok?
    ensures var p := Drift1d(meta, driftmask, drift1d).value;
      && (forall k :: 0 <= k < meta.nInt ==> (k in Xs(p.good) <==> !driftmask[k]))
      && (forall k :: 0 <= k < meta.nInt ==> (k in Xs(p.interpolated) <==> driftmask[k]))
      && (forall j :: 0 <= j < |p.good| ==> p.good[j].y == drift1d[p.good[j].x])
      && (forall j :: 0 <= j < |p.interpolated| ==> p.interpolated[j].y == drift1d[p.interpolated[j].x])
  {
    DriftPointsSelect(meta.nInt, driftmask, drift1d, false);
    DriftPointsSelect(meta.nInt, driftmask, drift1d, true);
    var r := Drift1d(meta, driftmask, drift1d);
    assert r.Ok?;
  }

  /** The two point sets together hold exactly `n_int` points. */
  lemma DriftPartitionSize(meta: Meta, driftmask: seq<bool>, drift1d: seq<real>)
    requires meta.nspecchan >= 1
    requires |driftmask| == |drift1d| == meta.nInt
    ensures Drift1d(meta, driftmask, drift1d).Ok?
    ensures var p := Drift1d(meta, driftmask, drift1d).value;
      |p.good| + |p.interpolated| == meta.nInt
  {
    var p := DriftPlotOf(meta, driftmask, drift1d);
    WhereCounts(driftmask);
  }

  /** The drawn plot, with its point sets listing the mask's false and true
      positions. */
  lemma DriftPlotOf(meta: Meta, driftmask: seq<bool>, drift1d: seq<real>) returns (p: DriftPlot)
    requires meta.nspecchan >= 1
    requires |driftmask| == |drift1d| == meta.nInt
    ensures Drift1d(meta, driftmask, drift1d) == Ok(p)
    ensures Xs(p.good) == Where(driftmask, false)
    ensures Xs(p.interpolated) == Where(driftmask, true)
    ensures |p.good| == |Where(driftmask, false)| && |p.interpolated| == |Where(driftmask, true)|
  {
    DriftPointsSelect(meta.nInt, driftmask, drift1d, false);
    DriftPointsSelect(meta.nInt, driftmask, drift1d, true);
    var r := Drift1d(meta, driftmask, drift1d);
    assert r.Ok?;
    p := r.value;
  }

  /** Example: mask [F, F, T, F, T] puts frames 0, 1, 3 among the
      good points and frames 2, 4 among the interpolated ones. */
  lemma DriftExample(meta: Meta, mask: seq<bool>, drift: seq<real>)
    requires meta.nspecchan >= 1 && meta.nInt == 5
    requires mask == [false, false, true, false, true] && |drift| == 5
    ensures Drift1d(meta, mask, drift).Ok?
    ensures var g := Drift1d(meta, mask, drift).value.good;
      |g| == 3 && g[0] == Point(0, drift[0]) && g[1] == Point(1, drift[1]) && g[2] == Point(3, drift[3])
    ensures var v := Drift1d(meta, mask, drift).value.interpolated;
      |v| == 2 && v[0] == Point(2, drift[2]) && v[1] == Point(4, drift[4])
  {
    WhereExample();
    var r := Drift1d(meta, mask, drift);
    assert r.Ok?;
    PointsOfFrames(5, mask, drift, false, r.value.good, [0, 1, 3]);
    PointsOfFrames(5, mask, drift, true, r.value.interpolated, [2, 4]);
  }

  /** Drawn points are fixed by their frames: each is its frame paired with
      that frame's drift value. */
  lemma PointsOfFrames(nInt: int, mask: seq<bool>, drift: seq<real>, flag: bool, ps: seq<Point>, frames: seq<nat>)
    requires DriftPoints(nInt, mask, drift, flag) == Ok(ps)
    requires Xs(ps) == frames
    ensures |ps| == |frames|
    ensures forall j :: 0 <= j < |frames| ==> frames[j] < |drift| && ps[j] == Point(frames[j], drift[frames[j]])
  {
    assert |ps| == |Xs(ps)|;
    forall j | 0 <= j < |frames|
      ensures frames[j] < |drift| && ps[j] == Point(frames[j], drift[frames[j]])
    {
      assert Xs(ps)[j] == ps[j].x;
    }
  }

  lemma WhereExample()
    ensures Where([false, false, true, false, true], false) == [0, 1, 3]
    ensures Where([false, false, true, false, true], true) == [2, 4]
  {
    var m := [false, false, true, false, true];
    assert m[..4] == [false, false, true, false];
    assert m[..4][..3] == [false, false, true];
    assert m[..4][..3][..2] == [false, false];
    assert m[..4][..3][..2][..1] == [false];
    assert [false][..0] == [];
    assert Where([false], false) == [0];
    assert Where([false, false], false) == [0, 1];
    assert Where([false, false, true], false) == [0, 1];
    assert Where([false, false, true, false], false) == [0, 1, 3];
    assert Where([false], true) == [];
    assert Where([false, false], true) == [];
    assert Where([false, false, true], true) == [2];
    assert Where([false, false, true, false], true) == [2];
  }

  // ---------------------------------------------------------------------------
  // lc_driftcorr: the 2D flux map, figure 42, one file, channel-edge ticks

  /** `np.unique(np.concatenate([wave_low, wave_hi]))` when there is more than
      one channel, and no ticks otherwise. */
  function ChannelEdgeTicks(meta: Meta): (ticks: seq<real>)
    ensures meta.nspecchan <= 1 ==> ticks == []
    ensures meta.nspecchan > 1 ==> StrictlyIncreasing(ticks)
    ensures meta.nspecchan > 1 ==>
      forall y :: y in ticks <==> y in meta.waveLow || y in meta.waveHi
  {
    if meta.nspecchan > 1 then SortedUnique(meta.waveLow + meta.waveHi) else []
  }

  /** The least element of a non-empty array. */
  function Least(a: seq<real>): (m: real)
    requires |a| > 0
    ensures m in a && forall x :: x in a ==> m <= x
  {
    if |a| == 1 then a[0]
    else
      var rest := Least(a[1..]);
      assert forall x :: x in a ==> x == a[0] || x in a[1..];
      if a[0] <= rest then a[0] else rest
  }

  /** The greatest element of a non-empty array. */
  function Greatest(a: seq<real>): (m: real)
    requires |a| > 0
    ensures m in a && forall x :: x in a ==> x <= m
  {
    if |a| == 1 then a[0]
    else
      var rest := Greatest(a[1..]);
      assert forall x :: x in a ==> x == a[0] || x in a[1..];
      if rest <= a[0] then a[0] else rest
  }

  /** The flux-map plot of the spectra `optspec` (of which only the shape is
      read here) over the wavelength axis `wave_1d`: figure 42 of the channel
      count, saved under index 0, with the image spanning the wavelength range
      and one row per integration, and ticks at the distinct channel edges
      when there is more than one channel.  `wave_1d.min()` raises ValueError
      on an empty axis, and unpacking `optspec.shape` into two names raises
      ValueError unless the spectra are two-dimensional. */
  function LcDriftcorr(meta: Meta, wave1d: seq<real>, shape: seq<nat>): (r: Result<FluxMapPlot>)
    requires meta.nspecchan >= 1
    ensures r.Ok? <==> |wave1d| > 0 && |shape| == 2
    ensures r.Err? && |wave1d| == 0 ==> r.error == EmptyReduction("minimum")
    ensures r.Err? && |wave1d| > 0 ==> r.error == UnpackMismatch(2, |shape|)
    ensures r.Ok? ==> r.value.wmin in wave1d && forall x :: x in wave1d ==> r.value.wmin <= x
    ensures r.Ok? ==> r.value.wmax in wave1d && forall x :: x in wave1d ==> x <= r.value.wmax
    ensures r.Ok? ==> r.value.rows == shape[0]
    ensures r.Ok? ==> r.value.figure.handle == 42 * Pow10(PadWidth(meta.nspecchan))
    ensures r.Ok? ==> DecodeFileName(meta.outputdir, r.value.figure.path) == Some(Artifact(LightCurve2D, 0))
    ensures r.Ok? && meta.nspecchan <= 1 ==> r.value.ticks == []
    ensures r.Ok? && meta.nspecchan > 1 ==> StrictlyIncreasing(r.value.ticks)
    ensures r.Ok? && meta.nspecchan > 1 ==>
      forall y :: y in r.value.ticks <==> y in meta.waveLow || y in meta.waveHi
  {
    if |wave1d| == 0 then Err(EmptyReduction("minimum"))
    else if |shape| != 2 then Err(UnpackMismatch(2, |shape|))
    else Ok(FluxMapPlot(FigureFor(meta, LightCurve2D, 0), Least(wave1d), Greatest(wave1d), shape[0], ChannelEdgeTicks(meta)))
  }

  /** Example: three channels (1, 2), (2, 3), (3, 4) give the four
      edges 1, 2, 3, 4, the shared edges once each. */
  lemma TicksExample(meta: Meta)
    requires meta.nspecchan == 3
    requires meta.waveLow == [1.0, 2.0, 3.0] && meta.waveHi == [2.0, 3.0, 4.0]
    ensures ChannelEdgeTicks(meta) == [1.0, 2.0, 3.0, 4.0]
  {
    var expected := [1.0, 2.0, 3.0, 4.0];
    var ticks := ChannelEdgeTicks(meta);
    forall y
      ensures y in ticks <==> y in expected
    {
    }
    SortedListingUnique(ticks, expected);
  }

  /** The ticks depend only on which edge values occur: swapping the lower
      and upper bounds, or listing the channels in another order, changes
      nothing. */
  lemma TicksDependOnValuesOnly(meta: Meta, other: Meta)
    requires meta.nspecchan > 1 && other.nspecchan > 1
    requires forall y :: y in meta.waveLow || y in meta.waveHi <==> y in other.waveLow || y in other.waveHi
    ensures ChannelEdgeTicks(meta) == ChannelEdgeTicks(other)
  {
    SortedListingUnique(ChannelEdgeTicks(meta), ChannelEdgeTicks(other));
  }

  // ---------------------------------------------------------------------------
  // cc_spec and cc_vals: cross-correlation diagnostics, figures 44 and 45,
  // one file per integration

  /** `range(drift_range, nx - drift_range)`: the positions of the fit
      spectrum, trimmed by the drift range at both ends of the reference. */
  function FitSpectrumAxis(driftRange: int, nx: int): (r: seq<int>)
    ensures nx >= 2 * driftRange ==> |r| == nx - 2 * driftRange
    ensures nx < 2 * driftRange ==> r == []
    ensures forall x :: x in r <==> driftRange <= x < nx - driftRange
    ensures StrictlyIncreasingInts(r)
  {
    RangeMembers(driftRange, nx - driftRange);
    Range(driftRange, nx - driftRange)
  }

  /** `range(-drift_range, drift_range + 1)`: the lags, from -d to d. */
  function LagAxis(driftRange: int): (r: seq<int>)
    ensures driftRange >= 0 ==> |r| == 2 * driftRange + 1
    ensures driftRange >= 0 ==> r[0] == -driftRange && r[|r| - 1] == driftRange
    ensures driftRange < 0 ==> r == []
    ensures forall x :: x in r <==> -driftRange <= x <= driftRange
    ensures StrictlyIncreasingInts(r)
  {
    RangeMembers(-driftRange, driftRange + 1);
    Range(-driftRange, driftRange + 1)
  }

  /** The spectrum comparison of integration `n`: the reference over
      `range(nx)` and the fit spectrum over the trimmed axis, saved under
      index `n`.  matplotlib raises when the fit spectrum does not have the
      trimmed length. */
  function CcSpec(meta: Meta, refSpec: seq<real>, fitSpec: seq<real>, n: nat): (r: Result<SpectrumPlot>)
    requires meta.nspecchan >= 1
    ensures r.Ok? <==> |fitSpec| == Max(0, |refSpec| - 2 * meta.driftRange)
    ensures r.Ok? ==> r.value.figure == FigureFor(meta, CrossCorrSpectrum, n)
    ensures r.Ok? ==> |r.value.reference| == |refSpec|
    ensures r.Ok? ==> forall j :: 0 <= j < |refSpec| ==> r.value.reference[j] == Point(j, refSpec[j])
    ensures r.Ok? ==> |r.value.current| == |fitSpec|
    ensures r.Ok? ==> forall j :: 0 <= j < |fitSpec| ==> r.value.current[j] == Point(meta.driftRange + j, fitSpec[j])
    ensures r.Err? ==> r.error == LengthMismatch(Max(0, |refSpec| - 2 * meta.driftRange), |fitSpec|)
  {
    var reference := ReferenceCurve(refSpec);
    var current :- FitCurve(meta.driftRange, |refSpec|, fitSpec);
    Ok(SpectrumPlot(FigureFor(meta, CrossCorrSpectrum, n), reference, current))
  }

  /** `plot(range(nx), ref_spec)`: sample j at position j; it never raises. */
  function ReferenceCurve(refSpec: seq<real>): (ps: seq<Point>)
    ensures |ps| == |refSpec|
    ensures forall j :: 0 <= j < |refSpec| ==> ps[j] == Point(j, refSpec[j])
  {
    Curve(Range(0, |refSpec|), refSpec).value
  }

  /** `plot(range(drift_range, nx - drift_range), fit_spec)`: sample j at
      position d + j, or ValueError when the fit spectrum is not the trimmed
      length. */
  function FitCurve(driftRange: int, nx: int, fitSpec: seq<real>): (r: Result<seq<Point>>)
    ensures r.Ok? <==> |fitSpec| == Max(0, nx - 2 * driftRange)
    ensures r.Ok? ==> |r.value| == |fitSpec|
    ensures r.Ok? ==> forall j :: 0 <= j < |fitSpec| ==> r.value[j] == Point(driftRange + j, fitSpec[j])
    ensures r.Err? ==> r.error == LengthMismatch(Max(0, nx - 2 * driftRange), |fitSpec|)
  {
    var axis := FitSpectrumAxis(driftRange, nx);
    assert |axis| == Max(0, nx - 2 * driftRange);
    Curve(axis, fitSpec)
  }

  /** Sample j of the fit spectrum is drawn at the same position as sample
      d + j of the reference, so the two curves line up. */
  lemma CcSpecAligned(meta: Meta, refSpec: seq<real>, fitSpec: seq<real>, n: nat, j: int)
    requires meta.nspecchan >= 1 && meta.driftRange >= 0
    requires |fitSpec| == |refSpec| - 2 * meta.driftRange
    requires 0 <= j < |fitSpec|
    ensures CcSpec(meta, refSpec, fitSpec, n).Ok?
    ensures var p := CcSpec(meta, refSpec, fitSpec, n).value;
      meta.driftRange + j < |p.reference| && p.current[j].x == p.reference[meta.driftRange + j].x
  {
  }

  /** The cross-correlation strengths of integration `n` over the lags,
      saved under index `n`. */
  function CcVals(meta: Meta, vals: seq<real>, n: nat): (r: Result<ValuesPlot>)
    requires meta.nspecchan >= 1
    ensures r.Ok? <==> |vals| == Max(0, 2 * meta.driftRange + 1)
    ensures r.Ok? ==> r.value.figure == FigureFor(meta, CrossCorrValues, n)
    ensures r.Ok? ==> |r.value.values| == |vals|
    ensures r.Ok? ==> forall j :: 0 <= j < |vals| ==> r.value.values[j] == Point(j - meta.driftRange, vals[j])
    ensures r.Err? ==> r.error == LengthMismatch(Max(0, 2 * meta.driftRange + 1), |vals|)
  {
    var values :- Curve(LagAxis(meta.driftRange), vals);
    Ok(ValuesPlot(FigureFor(meta, CrossCorrValues, n), values))
  }
}

=== FILE: results.dfy ===
/** Failure-compatible result type for the operations whose source raises an
    exception: IndexError on an out-of-range index, KeyError on a missing
    dictionary key, the ValueErrors of numpy and matplotlib (an empty
    reduction, a shape that does not unpack, x and y arrays of different
    lengths handed to `plot`), and AttributeError on a lookup of an attribute
    an object does not have. */
module Results {

  datatype Option<+T> = None | Some(value: T)

  /** The exceptions the modelled code can raise. */
  datatype PlotError =
    | IndexOutOfBounds(index: int, size: nat)
    | KeyError(key: string)
    | EmptyReduction(operation: string)
    | UnpackMismatch(expected: nat, actual: nat)
    | LengthMismatch(xLength: nat, yLength: nat)
    | AttributeError(owner: string, attribute: string)

  datatype Result<+T> = Ok(value: T) | Err(error: PlotError) {

    predicate IsFailure() {
      Err?
    }

    function PropagateFailure<U>(): Result<U>
      requires Err?
    {
      Err(error)
    }

    function Extract(): T
      requires Ok?
    {
      value
    }
  }
}

=== FILE: unique.dfy ===
/** `np.unique` on a one-dimensional array of reals: the sorted sequence of
    the distinct values. */
module Unique {

  predicate StrictlyIncreasing(s: seq<real>) {
    forall i, j :: 0 <= i < j < |s| ==> s[i] < s[j]
  }

  /** Adds `x` to a strictly increasing sequence, keeping it strictly
      increasing; a value already present is not added twice. */
  function InsertSorted(s: seq<real>, x: real): (r: seq<real>)
    requires StrictlyIncreasing(s)
    ensures StrictlyIncreasing(r)
    ensures forall y :: y in r <==> y in s || y == x
  {
    if |s| == 0 then [x]
    else if x < s[0] then [x] + s
    else if x == s[0] then s
    else
      var rest := InsertSorted(s[1..], x);
      assert forall k :: 0 <= k < |rest| ==> rest[k] in rest;
      assert forall y :: y in rest ==> s[0] < y;
      [s[0]] + rest
  }

  /** `np.unique(xs)`: strictly increasing (so free of duplicates) and holding
      exactly the values that occur in `xs`. */
  function SortedUnique(xs: seq<real>): (r: seq<real>)
    ensures StrictlyIncreasing(r)
    ensures forall y :: y in r <==> y in xs
  {
    if |xs| == 0 then []
    else InsertSorted(SortedUnique(xs[..|xs| - 1]), xs[|xs| - 1])
  }

  lemma NoMembersEmpty(s: seq<real>)
    ensures (forall y :: y !in s) ==> s == []
  {
    if s != [] {
      var y := s[0];
      assert y in s;
      assert !(forall z :: z !in s);
    }
  }

  /** A finite set of reals has one strictly increasing listing: two strictly
      increasing sequences with the same elements are equal. */
  lemma {:induction false} SortedListingUnique(a: seq<real>, b: seq<real>)
    requires StrictlyIncreasing(a) && StrictlyIncreasing(b)
    requires forall y :: y in a <==> y in b
    ensures a == b
    decreases |a|
  {
    if |a| == 0 {
      NoMembersEmpty(b);
    } else if |b| == 0 {
      SortedListingUnique(b, a);
    } else {
      assert a[0] in b && b[0] in a;
      assert a[0] == b[0];
      forall y
        ensures y in a[1..] <==> y in b[1..]
      {
        if y in a[1..] {
          assert y in b && y != b[0];
        }
        if y in b[1..] {
          assert y in a && y != a[0];
        }
      }
      SortedListingUnique(a[1..], b[1..]);
      assert a == [a[0]] + a[1..] && b == [b[0]] + b[1..];
    }
  }

  /** Only the set of values matters: any two arrays with the same values give
      the same result, whatever their order or repetitions. */
  lemma SortedUniqueOfSameValues(xs: seq<real>, ys: seq<real>)
    requires forall y :: y in xs <==> y in ys
    ensures SortedUnique(xs) == SortedUnique(ys)
  {
    SortedListingUnique(SortedUnique(xs), SortedUnique(ys));
  }

  /** A strictly increasing sequence is its own `np.unique`. */
  lemma SortedUniqueOfSorted(s: seq<real>)
    requires StrictlyIncreasing(s)
    ensures SortedUnique(s) == s
  {
    SortedListingUnique(SortedUnique(s), s);
  }
}
